=== FILE: README.md ===
# Auto-aim core in Dafny

A model of the sequential core of an armor-plate auto-aim pipeline, with proofs
about it. The pipeline finds light strips in a binary image and pairs them into
armor plates. It then follows one plate from frame to frame with a four-state
tracker and a constant-velocity Kalman filter. A separate helper calibrates the
camera from chessboard images.

| file | module | models |
|---|---|---|
| `common.dfy` | `Options`, `Geometry`, `FloatModel`, `ArgMin`, `Sequences` | Shared pieces. Nullable pointers become `Option`, points have real coordinates, and `Float` holds the finite/infinite/NaN values a single-precision score can take. `ArgMin` is the "first strict minimum below the FltMax sentinel" loop that the tracker uses twice. `Sequences` is an order-preserving filter-and-map. |
| `armor.dfy` | `Armors` | The armor centre, and `updateVertices`, which puts the corners in top-left, top-right, bottom-right, bottom-left order. |
| `kalman.dfy` | `Kalman` | The filter wrapper: its `initialized` guard, what `init`, `predict` and `update` write, and the transition and measurement matrices. |
| `tracker.dfy` | `Tracking` | `reset`, `init`, `calculateMatchScore`, `selectBestMatch` and the four branches of `update`. One call of `Tracking.Step` is one frame, and it also reports which filter calls it made. |
| `detector.dfy` | `Detection` | The light-selection loop of `Detector::findLights`. |
| `calibration.dfy` | `Calibration` | The image-name filter, the chessboard object-point grid and the "at least ten boards" verdict. Also the early exits of `calibrateFromChessboard` and `generateDummyCameraParams`. |

The tracker follows the code as written, and as written the promotion from
DETECTING to TRACKING at final_delivery/src/tracker.cpp:125-128 can never run:
- `selectBestMatch` returns nothing while the tracking flag is off (line 41);
- `init` switches that flag off (line 34);
- only that promotion branch would switch it on (line 127).

So every update from DETECTING returns to LOST:
- `Tracking.DetectingStep` states what the DETECTING branch would do on a match.
- `Tracking.DetectingAlwaysFallsBack` proves that it never matches.
- `Tracking.NeverTracksFromStart` proves that a tracker fresh from construction
  never reaches TRACKING or TEMP_LOST, whatever frames it is given.

## Model

| member | source | states |
|---|---|---|
| FloatModel.Div | final_delivery/src/tracker.cpp:79-87 | The size ratio's division. It is finite exactly when the divisor is non-zero, and then the quotient times the divisor gives back the dividend. It is NaN exactly for 0/0; otherwise a zero divisor gives +inf for a positive dividend and −inf for a negative one. |
| FloatModel.MaxIsUpperBound | final_delivery/src/tracker.cpp:89 | Without NaN, std::max returns one of its two operands and neither operand is above it. |
| ArgMin.ScanCorrect | final_delivery/src/tracker.cpp:46-57 | Each step of the selection loop keeps an invariant: the kept index is eligible and strictly beats every earlier eligible candidate, and no later one beats it. Without a pick, the best key is still FltMax and nothing seen so far is eligible. |
| ArgMin.FirstMinSpec | final_delivery/src/tracker.cpp:46-57 | The loop picks nothing exactly when no valid candidate has a key strictly below FltMax, and then its best key is FltMax. Otherwise it picks the first candidate of minimal key, and the best key is that candidate's key. |
| ArgMin.FirstMinUnique | final_delivery/src/tracker.cpp:46-57 | At most one index fits the first-minimum description, so the chosen candidate is well defined. |
| Armors.Armor.Width | final_delivery/src/tracker.cpp:79-82 | The width term of the match score, `vertices[1].x - vertices[0].x`, is never negative, because the corner ordering puts the top-left corner left of the top-right one. |
| Armors.Armor.Height | final_delivery/src/tracker.cpp:84-87 | The height term of the match score, `vertices[2].y - vertices[1].y`, is never negative, because the corner ordering puts each top end above its bottom end. |
| Armors.Midpoint | src/armor.cpp:11 | The centre lies halfway: the step from the left centre to it equals the step from it to the right centre. |
| Armors.CenterIgnoresLightOrder | src/armor.cpp:8-11 | The centre is the same when the two lights are passed in swapped order. |
| Armors.EndsAreExtremities | src/armor.cpp:32-37 | After the y-swap, a light's upper and lower ends are its two extremity points, and the upper one is not below the lower one. |
| Armors.UpdateVertices | src/armor.cpp:17-50 | A missing light gives no vertices. Otherwise there are four, with top not below bottom on both vertical edges and the top-left not to the right of the top-right. |
| Armors.VerticesPermuteLightEnds | src/armor.cpp:23-49 | The four vertices are a permutation of the two lights' top and bottom points. |
| Armors.VerticesPairedByLight | src/armor.cpp:40-49 | Vertices 0 and 3 are the two ends of one light, and vertices 1 and 2 are the ends of the other. |
| Armors.VerticesIgnoreLightOrder | src/armor.cpp:30-49 | Swapping the light arguments gives the same vertex list whenever the lights' upper ends have different x. |
| Armors.VerticesFollowArgumentsOnTie | src/armor.cpp:40 | When the upper ends share an x, the first argument's upper end comes first, so the guard in the lemma above is needed. |
| Armors.VerticesIgnoreEndOrder | src/armor.cpp:32-37 | For either light, which extremity it reports as top does not change the vertices, provided that light's two ends have different y. |
| Armors.SideBySideExample | src/armor.cpp:8-50 | Two upright lights at x = 100 and x = 180 give centre (140, 100) and the expected rectangle, in either argument order. |
| Kalman.TransitionIsConstantVelocity | final_delivery/src/kalman_filter.cpp:17-19 | The transition advances x by 0.033 vx and y by 0.033 vy, and leaves both velocities unchanged. |
| Kalman.MeasurementObservesPositionOnly | final_delivery/src/kalman_filter.cpp:22-24 | The measurement of a state is its components 0 and 2 (x and y). |
| Kalman.Init | final_delivery/src/kalman_filter.cpp:43-52 | The posterior becomes (p.x, 0, p.y, 0), the filter is marked initialised and the exposed prediction is p. |
| Kalman.Predict | final_delivery/src/kalman_filter.cpp:54-63 | Before init it returns (0, 0) and changes nothing. Otherwise the returned and exposed position is the prior's position, (x + 0.033 vx, y + 0.033 vy), and the velocities carry over. |
| Kalman.Update | final_delivery/src/kalman_filter.cpp:65-76 | Before init it is a no-op. Otherwise the exposed position is the posterior's position and the prior is left as it was. |
| Kalman.UpdateAtPriorIsFixedPoint | final_delivery/src/kalman_filter.cpp:65-76 | A measurement equal to the prior's position leaves the posterior at the prior, whatever the gain. |
| Kalman.UpdateWithFullTrustGain | final_delivery/src/kalman_filter.cpp:65-76 | With a gain that fully trusts the measurement, the exposed position is the measurement and the velocities are kept. |
| Kalman.PredictFromRestStaysPut | final_delivery/src/kalman_filter.cpp:43-63 | After init at p, any number of predictions stays at p with zero velocity, still initialised. |
| Tracking.Reset | final_delivery/src/tracker.cpp:13-19 | The state is LOST, the tracking flag is off, there is no tracked armor and both counters are 0. The filter and the last prediction are untouched. |
| Tracking.InitialIsDormant | final_delivery/src/tracker.cpp:8-11 | A new tracker is LOST and dormant, with its filter not initialised. |
| Tracking.ClosestIndex | final_delivery/src/tracker.cpp:98-111 | The acquisition pick is the first valid armor of minimal distance to (640, 360). When no valid armor is below FltMax, it falls back to armors[0]. |
| Tracking.InitOn | final_delivery/src/tracker.cpp:21-38 | An invalid armor resets the tracker and calls nothing. A valid one gives DETECTING with detect count 1, lost count 0 and the flag off, tracks that armor, and initialises the filter at its centre with zero velocity through one init call. |
| Tracking.SizeRatio | final_delivery/src/tracker.cpp:79-87 | max/min of two positive sizes is finite and at least 1. |
| Tracking.MatchScore | final_delivery/src/tracker.cpp:67-93 | Without the tracking flag or a tracked armor, the score is the FltMax sentinel. With positive widths and heights on both armors, the size penalty is at least 1, so the score is finite and at least the distance, which is at least 0. |
| Tracking.SelectBestMatch | final_delivery/src/tracker.cpp:40-65 | A reported match is a valid armor of the list. |
| Tracking.SelectBestMatchSpec | final_delivery/src/tracker.cpp:40-65 | There is no match for an empty list or with the tracking flag off. Otherwise there is a match exactly when the first valid armor of minimal score scores strictly below the match gate, and that armor is the match. |
| Tracking.Step | final_delivery/src/tracker.cpp:95-202 | TRACKING and TEMP_LOST call predict exactly once, and first; LOST and DETECTING never call it. The tracking flag can only switch on through a DETECTING match. Only LOST initialises the filter. LostAcquires, DetectingStep, TrackingStep and TempLostStep state each branch in full. |
| Tracking.StepFilterFollowsCalls | final_delivery/src/tracker.cpp:95-202 | The filter after an update is exactly the result of the init/predict/update calls the update reports, applied in order. |
| Tracking.LostIgnoresEmptyFrame | final_delivery/src/tracker.cpp:97-115 | In LOST, an empty list changes nothing and calls nothing. |
| Tracking.LostAcquires | final_delivery/src/tracker.cpp:97-115 | In LOST with armors, the result is DETECTING exactly when the picked armor is valid. It then has detect count 1, lost count 0, the flag off, that armor tracked, the predicted position kept and the filter initialised at its centre; the one call is init at that centre. Otherwise the tracker resets. |
| Tracking.LostAcquiresIffSomeValid | final_delivery/src/tracker.cpp:97-113 | When valid distances are below FltMax, LOST with armors reaches DETECTING exactly when at least one armor is valid. |
| Tracking.AcquireSingleArmorExample | final_delivery/src/tracker.cpp:97-115 | One valid armor centred at (500, 500) seen from LOST gives DETECTING with count 1 and the filter initialised at (500, 500). |
| Tracking.DetectingStep | final_delivery/src/tracker.cpp:117-138 | In DETECTING, a match adds one detection, keeps the lost count and predicted position, tracks the match and corrects the filter at it with a single update call. It confirms TRACKING exactly when the count reaches the threshold, and the tracking flag is set exactly when it was already set or the count reaches the threshold. No match clears the count and returns to LOST. |
| Tracking.DetectingAlwaysFallsBack | final_delivery/src/tracker.cpp:117-138 | With the tracking flag off, every update in DETECTING returns to LOST with detect count 0 and makes no filter call. |
| Tracking.TrackingStep | final_delivery/src/tracker.cpp:140-170 | After the prediction, a match stays TRACKING with lost count 0, keeps the tracking flag and detection count, and takes its position from the filter corrected at the match; the calls are predict then update. A miss calls only predict, adds one lost frame, keeps the tracked armor, flag, detection count, filter and prediction, and becomes TEMP_LOST exactly when the count reaches the threshold. |
| Tracking.TempLostStep | final_delivery/src/tracker.cpp:172-200 | After the prediction, a match returns to TRACKING with lost count 0, keeps the predicted position, the tracking flag and the detection count, and corrects the filter at the match; the frame's calls are predict then update at the match. A miss calls only predict, adds one lost frame and resets exactly when the count reaches twice the threshold. |
| Tracking.NoMatchIsLikeEmptyFrame | final_delivery/src/tracker.cpp:117-199 | Outside LOST, armors that give no match are handled exactly like an empty list. |
| Tracking.MissesBeforeReset | final_delivery/src/tracker.cpp:156-198 | From TRACKING with a clear counter, n < 2 lostThres misses leave the lost count at n and the tracked armor unchanged. The state is TRACKING below lostThres and TEMP_LOST from there on. |
| Tracking.ConsecutiveMisses | final_delivery/src/tracker.cpp:140-200 | From TRACKING with a clear counter, k misses give TRACKING for k < lostThres and TEMP_LOST for lostThres <= k < 2 lostThres. At k = 2 lostThres the tracker is fully reset. |
| Tracking.DormantIsStable | final_delivery/src/tracker.cpp:21-138 | From LOST or fresh DETECTING with the flag off, every update leaves the tracker in one of those two situations. |
| Tracking.NeverTracksFromStart | final_delivery/src/tracker.cpp:95-202 | From a dormant tracker, such as a new one, no sequence of frames ever reaches TRACKING or TEMP_LOST. |
| Detection.Stamp | src/detector.cpp:97 | A kept light carries the detection colour and is otherwise unchanged. |
| Detection.FindLightsLoop | src/detector.cpp:59-110 | The loop returns the order-preserving filter of the contours, stamped, and every light it returns has the detection colour. |
| Detection.EmptyImageHasNoLights | src/detector.cpp:62-65 | An empty image gives no lights. |
| Detection.LightMembership | src/detector.cpp:76-106 | A light is in the output exactly when some contour has at least five points, passes both strict ratio bounds and the strict angle bound, and gives that light once stamped. |
| Detection.FoundLightsHaveDetectColor | src/detector.cpp:96-98 | Every light found has the detection colour. |
| Detection.ShortContourContributesNothing | src/detector.cpp:78-80 | Inserting a contour of fewer than five points anywhere leaves the output unchanged. |
| Detection.LightsAreOrderedSubsequence | src/detector.cpp:76-106 | The output is an order-preserving subsequence of the stamped per-contour lights, so it has at most one light per contour. |
| Calibration.IsImageFileByParts | src/camera_calibrator.cpp:31-34 | A name is accepted exactly when it is a non-empty stem followed by ".jpg", ".png" or ".bmp". |
| Calibration.ImageFileExamples | src/camera_calibrator.cpp:31-34 | "board01.jpg", "a.png" and "x.bmp" are accepted. ".jpg", "board01.jpeg", "board01.JPG" and "notes.txt" are rejected. |
| Calibration.CollectImagePaths | src/camera_calibrator.cpp:28-37 | The reading loop gives the accepted names joined to the directory with "/", in listing order. |
| Calibration.ImagePathMembership | src/camera_calibrator.cpp:29-37 | A path is produced exactly when some listed entry is accepted and the path is `dir + "/" + entry`. |
| Calibration.ImagePathsKeepOrder | src/camera_calibrator.cpp:29-37 | Listing order is kept: the paths of two listings in sequence are the first listing's paths followed by the second's. |
| Calibration.ObjectGridLayout | src/camera_calibrator.cpp:81-86 | The grid has width x height entries, and none when either is not positive. The entry at i width + j is (j size, i size, 0). |
| Calibration.GenerateObjectCorners | src/camera_calibrator.cpp:81-86 | The nested loop builds exactly the row-major grid. |
| Calibration.FindChessboardCorners | src/camera_calibrator.cpp:73-126 | The image points gain the corners of each successful image, in order. The object points gain one copy of the grid per success, so both grow together. The verdict is true exactly when at least ten images succeeded. |
| Calibration.CalibrateFromChessboard | src/camera_calibrator.cpp:16-54 | It fails exactly when the directory cannot be opened, when it holds no image file, or when fewer than ten boards are found, in that order. Otherwise calibration receives at least ten corner sets with as many grids. |
| Calibration.DummyCameraGeometry | src/camera_calibrator.cpp:180-195 | The dummy camera has fx = fy = 800 and its principal point at (width/2, height/2). The optical axis therefore projects to the image centre, a point at depth z lands 800 x/z and 800 y/z from that centre, and k3 = 0. |

## Left out

- Floating point: every coordinate, ratio and matrix entry is an exact real, and single-precision rounding is not modelled. The one exception is the match score: its division by a zero width or height, with the resulting infinities and NaN, is modelled through `FloatModel.Float`.
- `cv::norm` is a square root, which Dafny's reals do not provide. It is a parameter `norm` of `Tracking.Params`, and the lemmas that need it ask for a non-negative value.
- `Armor::isValid`, `tracking_thres_`, `lost_thres_` and `max_match_distance_` are defined in a header that is not part of this model. They are parameters of `Tracking.Params`.
- The tracker keeps a pointer into the frame's armor list, and that pointer outlives the frame. The model keeps a copy of the matched armor, so the next frame's score reads the armor as it was matched rather than freed memory.
- `Kalman.Update`: the gain comes from the error covariance inside `cv::KalmanFilter`. It is an input of each update (a 4x2 matrix), and the noise covariances and covariance updates are not modelled. `cv::KalmanFilter::predict` copies the new prior into the posterior, and `correct` starts from that prior. The model does the same.
- The process and measurement noise values and the initial error covariance would only shape the gain, so they are not modelled.
- `KalmanFilter::getPrediction` is defined in a header that is not part of this model. It is taken to return the exposed position that `init`, `predict` and `update` write.
- Tracking.ConsecutiveMisses: counters and thresholds are unbounded integers. In the original they are fixed-width `int`s, so with a 32-bit int `lost_thres_ * 2` overflows once `lost_thres_` reaches 2^30, and the reset at exactly twice the threshold holds only below that. Tracking.MissesBeforeReset and Tracking.TempLostStep share this assumption, as does every `++` of the two counters.
- The light-pair matcher, which builds armors and assigns their type, is not part of this model. Armors arrive as given lists.
- `Detection.Accepts` rejects a light whose `length + 1e-5` is zero. In the original the ratio is then infinite or NaN, and that fails one of the two strict bounds for finite settings.
- Image preprocessing, `cv::findContours`, `cv::minAreaRect` and the `Light(rect)` constructor are not modelled. Each contour arrives as its point count and its light.
- The detection colour is the integer value of the configured colour enumerator (0 red, 1 blue). The enumeration itself is not part of this model.
- `Calibration.FindChessboardCorners`: reading an image, finding the board and refining its corners are one input function, which says whether an image is unreadable, shows no board, or shows a board with given corners. The debug window is left out.
- `Calibration.CalibrateFromChessboard`: directory listing order is whatever the listing gives, taken as an input sequence. `cv::calibrateCamera`, the image-size probe and saving the result are I/O and library code. The model stops at the point where calibration would start.
- `loadCalibration`, `saveCalibration` and the calibrator's constructor are file I/O or default values and are not modelled.
- The PnP solver, the coordinate transformer, the video front end, the Python calibration script, the demo screen and all drawing and logging are outside the modelled core.

=== FILE: armor.dfy ===
/**
 * Armor plates: a pair of light strips, its centre and its four corner points
 * in top-left, top-right, bottom-right, bottom-left order.
 */
module Armors {
  import opened Options
  import opened Geometry

  datatype ArmorType = Small | Large | Invalid

  /** A light strip as the detector describes it; `color` is the integer colour code. */
  datatype Light = Light(center: Point, top: Point, bottom: Point,
                         length: real, width: real, tiltAngle: real, color: int)

  /**
   * An armor built from two lights. The original keeps pointers to the two lights;
   * here they are held by value, so they can never be missing. The type is assigned
   * by the light-pair matcher, which is not part of this model.
   */
  datatype Armor = Armor(left: Light, right: Light, kind: ArmorType) {
    function Center(): Point {
      Midpoint(left.center, right.center)
    }

    function Vertices(): (vs: seq<Point>)
      ensures |vs| == 4
    {
      UpdateVertices(Some(left), Some(right))
    }

    /** Horizontal extent of the top edge, `vertices[1].x - vertices[0].x`. */
    function Width(): (w: real)
      ensures w >= 0.0
    {
      Vertices()[1].x - Vertices()[0].x
    }

    /** Vertical extent of the right edge, `vertices[2].y - vertices[1].y`. */
    function Height(): (h: real)
      ensures h >= 0.0
    {
      Vertices()[2].y - Vertices()[1].y
    }
  }

  /** `(a + b) * 0.5`: the point halfway between a and b. */
  function Midpoint(a: Point, b: Point): (c: Point)
    ensures Sub(c, a) == Sub(b, c)
  {
    Scale(Add(a, b), 0.5)
  }

  /** The centre does not depend on which light is called left. */
  lemma CenterIgnoresLightOrder(l: Light, r: Light, k: ArmorType)
    ensures Armor(l, r, k).Center() == Armor(r, l, k).Center()
    ensures Sub(Armor(l, r, k).Center(), l.center) == Sub(r.center, Armor(l, r, k).Center())
  {
  }

  /** The upper of a light's two extremity points (the smaller y; top on a tie). */
  function UpperEnd(l: Light): Point {
    if l.top.y > l.bottom.y then l.bottom else l.top
  }

  /** The lower of a light's two extremity points. */
  function LowerEnd(l: Light): Point {
    if l.top.y > l.bottom.y then l.top else l.bottom
  }

  /** vs[0], vs[3] are the two ends of one light and vs[1], vs[2] the two ends of the other. */
  predicate PairedByLight(vs: seq<Point>, l: Light, r: Light)
    requires |vs| == 4
  {
    || (multiset{vs[0], vs[3]} == multiset{l.top, l.bottom} && multiset{vs[1], vs[2]} == multiset{r.top, r.bottom})
    || (multiset{vs[0], vs[3]} == multiset{r.top, r.bottom} && multiset{vs[1], vs[2]} == multiset{l.top, l.bottom})
  }

  /** A light's upper and lower ends are its two extremity points. */
  lemma EndsAreExtremities(l: Light)
    ensures multiset{UpperEnd(l), LowerEnd(l)} == multiset{l.top, l.bottom}
    ensures UpperEnd(l).y <= LowerEnd(l).y
  {
  }

  /**
   * Armor::updateVertices: order each light's ends by y, then order the lights by the
   * x of their upper ends, swapping top and bottom together.
   */
  function UpdateVertices(left: Option<Light>, right: Option<Light>): (vs: seq<Point>)
    ensures left.None? || right.None? ==> vs == []
    ensures left.Some? && right.Some? ==>
      && |vs| == 4
      && vs[0].y <= vs[3].y && vs[1].y <= vs[2].y
      && vs[0].x <= vs[1].x
  {
    if left.None? || right.None? then []
    else
      var (lt, lb) := (UpperEnd(left.value), LowerEnd(left.value));
      var (rt, rb) := (UpperEnd(right.value), LowerEnd(right.value));
      if lt.x > rt.x then [rt, lt, lb, rb] else [lt, rt, rb, lb]
  }

  /** The corners are the four light ends, rearranged: each end of each light appears once. */
  lemma VerticesPermuteLightEnds(l: Light, r: Light)
    ensures multiset(UpdateVertices(Some(l), Some(r))) == multiset{l.top, l.bottom} + multiset{r.top, r.bottom}
  {
    var (ul, ll, ur, lr) := (UpperEnd(l), LowerEnd(l), UpperEnd(r), LowerEnd(r));
    EndsAreExtremities(l);
    EndsAreExtremities(r);
    if ul.x > ur.x {
      assert UpdateVertices(Some(l), Some(r)) == [ur, ul, ll, lr];
      MultisetOfFour(ur, ul, ll, lr);
    } else {
      assert UpdateVertices(Some(l), Some(r)) == [ul, ur, lr, ll];
      MultisetOfFour(ul, ur, lr, ll);
    }
  }

  lemma MultisetOfFour(a: Point, b: Point, c: Point, d: Point)
    ensures multiset([a, b, c, d]) == multiset{a, d} + multiset{b, c}
  {
  }

  /** The corners of each vertical edge, vs[0] with vs[3] and vs[1] with vs[2], are the ends of one light. */
  lemma VerticesPairedByLight(l: Light, r: Light)
    ensures PairedByLight(UpdateVertices(Some(l), Some(r)), l, r)
  {
    EndsAreExtremities(l);
    EndsAreExtremities(r);
  }

  /** Passing the lights in the other order gives the same corners, unless their upper ends share an x. */
  lemma VerticesIgnoreLightOrder(l: Light, r: Light)
    requires UpperEnd(l).x != UpperEnd(r).x
    ensures UpdateVertices(Some(l), Some(r)) == UpdateVertices(Some(r), Some(l))
  {
  }

  /** Without the x-tie guard the lemma above fails: equal upper-end x keeps the argument order. */
  lemma VerticesFollowArgumentsOnTie(l: Light, r: Light)
    requires UpperEnd(l).x == UpperEnd(r).x
    ensures UpdateVertices(Some(l), Some(r))[0] == UpperEnd(l)
    ensures UpdateVertices(Some(r), Some(l))[0] == UpperEnd(r)
  {
  }

  /**
   * Which extremity of either light is reported as `top` does not matter, unless
   * that light's two ends have the same y.
   */
  lemma VerticesIgnoreEndOrder(l: Light, r: Light)
    ensures l.top.y != l.bottom.y ==>
      UpdateVertices(Some(l.(top := l.bottom, bottom := l.top)), Some(r)) == UpdateVertices(Some(l), Some(r))
    ensures r.top.y != r.bottom.y ==>
      UpdateVertices(Some(l), Some(r.(top := r.bottom, bottom := r.top))) == UpdateVertices(Some(l), Some(r))
  {
  }

  /** Two upright lights side by side give the expected rectangle, whichever is passed first. */
  lemma SideBySideExample()
    ensures
      var l := Light(Point(100.0, 100.0), Point(100.0, 75.0), Point(100.0, 125.0), 50.0, 10.0, 0.0, 0);
      var r := Light(Point(180.0, 100.0), Point(180.0, 75.0), Point(180.0, 125.0), 50.0, 10.0, 0.0, 0);
      var quad := [Point(100.0, 75.0), Point(180.0, 75.0), Point(180.0, 125.0), Point(100.0, 125.0)];
      && Armor(l, r, Small).Center() == Point(140.0, 100.0)
      && Armor(l, r, Small).Vertices() == quad
      && Armor(r, l, Small).Vertices() == quad
  {
  }
}

=== FILE: calibration.dfy ===
/**
 * The pure parts of CameraCalibrator: which directory entries count as images,
 * the chessboard's object-point grid, the "at least 10 boards" verdict, the
 * early exits of calibrateFromChessboard, and the dummy camera parameters.
 * Directory reading, image decoding and corner finding enter as inputs.
 */
module Calibration {
  import opened Options
  import opened Geometry
  import opened Sequences

  const ImageExtensions: set<string> := {".jpg", ".png", ".bmp"}

  /** Fewer boards than this and calibration is refused. */
  const MinBoards: nat := 10

  /** Longer than four characters and ending, case-sensitively, in .jpg, .png or .bmp. */
  predicate IsImageFile(name: string) {
    && |name| > 4
    && (name[|name| - 4..] == ".jpg" || name[|name| - 4..] == ".png" || name[|name| - 4..] == ".bmp")
  }

  /** An image file is a non-empty stem followed by one of the three extensions. */
  lemma IsImageFileByParts(name: string)
    ensures IsImageFile(name) <==>
      exists stem: string, ext: string :: |stem| > 0 && ext in ImageExtensions && name == stem + ext
  {
    if IsImageFile(name) {
      var stem, ext := name[..|name| - 4], name[|name| - 4..];
      assert name == stem + ext;
    }
    if stem: string, ext: string :| |stem| > 0 && ext in ImageExtensions && name == stem + ext {
      assert |ext| == 4;
      assert name[|name| - 4..] == ext;
    }
  }

  lemma ImageFileExamples()
    ensures IsImageFile("board01.jpg") && IsImageFile("a.png") && IsImageFile("x.bmp")
    ensures !IsImageFile(".jpg")
    ensures !IsImageFile("board01.jpeg")
    ensures !IsImageFile("board01.JPG")
    ensures !IsImageFile("notes.txt")
  {
    assert "board01.jpg"[7..] == ".jpg";
    assert "a.png"[1..] == ".png";
    assert "x.bmp"[1..] == ".bmp";
    assert "board01.jpeg"[8..] == "jpeg";
    assert "board01.JPG"[7..] == ".JPG";
    assert "notes.txt"[5..] == ".txt";
  }

  // IsImageFileFn and JoinFn name the filter's two functions once, so that
  // FilterMap's lemmas are applied to the same function values the definition uses.
  function IsImageFileFn(): string -> bool {
    (name: string) => IsImageFile(name)
  }

  function JoinFn(dir: string): string -> string {
    (name: string) => dir + "/" + name
  }

  /** The accepted entries as `dir/name`, in listing order. */
  function ImagePaths(dir: string, entries: seq<string>): seq<string> {
    FilterMap(entries, IsImageFileFn(), JoinFn(dir))
  }

  /** The directory-reading loop of calibrateFromChessboard, over the entries as listed. */
  method CollectImagePaths(dir: string, entries: seq<string>) returns (paths: seq<string>)
    ensures paths == ImagePaths(dir, entries)
  {
    paths := [];
    for i := 0 to |entries|
      invariant paths == ImagePaths(dir, entries[..i])
    {
      FilterMapAppend(entries[..i], entries[i], IsImageFileFn(), JoinFn(dir));
      assert entries[..i + 1] == entries[..i] + [entries[i]];
      var name := entries[i];
      if |name| > 4 && (name[|name| - 4..] == ".jpg" || name[|name| - 4..] == ".png" || name[|name| - 4..] == ".bmp") {
        paths := paths + [dir + "/" + name];
      }
    }
    assert entries[..|entries|] == entries;
  }

  /** A path is produced exactly for an accepted entry, joined to the directory with "/". */
  lemma ImagePathMembership(dir: string, entries: seq<string>, path: string)
    ensures path in ImagePaths(dir, entries) <==>
      exists i :: 0 <= i < |entries| && IsImageFile(entries[i]) && path == dir + "/" + entries[i]
  {
    FilterMapMembership(entries, IsImageFileFn(), JoinFn(dir), path);
  }

  /** Listing order is kept: the paths of a listing are those of its first part, then its second. */
  lemma ImagePathsKeepOrder(dir: string, first: seq<string>, second: seq<string>)
    ensures ImagePaths(dir, first + second) == ImagePaths(dir, first) + ImagePaths(dir, second)
  {
    FilterMapConcat(first, second, IsImageFileFn(), JoinFn(dir));
  }

  /** Position of corner (row i, column j) in a grid of the given width. */
  function GridIndex(i: int, j: int, width: int): int {
    i * width + j
  }

  /** One row of the board: x = j * size for each column j, y = i * size, z = 0. */
  function Row(width: int, i: int, size: real): (r: seq<Point3>)
    ensures |r| == (if width > 0 then width else 0)
  {
    seq(if width > 0 then width else 0, j requires 0 <= j => Point3(j as real * size, i as real * size, 0.0))
  }

  /** The first n rows of the board, in order. */
  function GridRows(width: int, n: int, size: real): seq<Point3>
    decreases n
  {
    if n <= 0 then [] else GridRows(width, n - 1, size) + Row(width, n - 1, size)
  }

  /** The object points of a board with the given pattern size. */
  function ObjectGrid(width: int, height: int, size: real): seq<Point3> {
    GridRows(width, height, size)
  }

  lemma MulMonotone(a: int, b: int, w: int)
    requires a <= b && w >= 0
    ensures a * w <= b * w
  {
  }

  /**
   * The grid has width x height entries (none when either is not positive), in
   * row-major order: entry i * width + j is (j * size, i * size, 0).
   */
  lemma {:induction false} ObjectGridLayout(width: int, height: int, size: real)
    ensures |ObjectGrid(width, height, size)| == (if width > 0 && height > 0 then width * height else 0)
    ensures forall i, j :: 0 <= i < height && 0 <= j < width ==>
      ObjectGrid(width, height, size)[GridIndex(i, j, width)] == Point3(j as real * size, i as real * size, 0.0)
    decreases height
  {
    if height > 0 {
      var g := ObjectGrid(width, height, size);
      var prev := ObjectGrid(width, height - 1, size);
      ObjectGridLayout(width, height - 1, size);
      assert g == prev + Row(width, height - 1, size);
      if width > 0 {
        assert |prev| == (height - 1) * width;
      }
      forall i, j | 0 <= i < height && 0 <= j < width
        ensures g[GridIndex(i, j, width)] == Point3(j as real * size, i as real * size, 0.0)
      {
        if i < height - 1 {
          MulMonotone(i + 1, height - 1, width);
          assert GridIndex(i, j, width) < |prev|;
        } else {
          assert GridIndex(i, j, width) == |prev| + j;
        }
      }
    }
  }

  /** The nested loop of findChessboardCorners that builds the grid. */
  method GenerateObjectCorners(width: int, height: int, size: real) returns (grid: seq<Point3>)
    ensures grid == ObjectGrid(width, height, size)
  {
    grid := [];
    var i := 0;
    while i < height
      invariant i <= (if height > 0 then height else 0)
      invariant grid == GridRows(width, i, size)
    {
      var j := 0;
      ghost var row := Row(width, i, size);
      while j < width
        invariant j <= |row|
        invariant grid == GridRows(width, i, size) + row[..j]
      {
        assert row[..j + 1] == row[..j] + [row[j]];
        assert row[j] == Point3(j as real * size, i as real * size, 0.0);
        grid := grid + [Point3(j as real * size, i as real * size, 0.0)];
        assert grid == GridRows(width, i, size) + (row[..j] + [row[j]]);
        j := j + 1;
      }
      assert row[..j] == row;
      i := i + 1;
    }
  }

  /** What reading and searching one image gave: unreadable, no board, or the refined corners. */
  datatype BoardDetection = Unreadable | NoBoard | Found(corners: seq<Point>)

  // FoundFn and CornersFn play the same part for the corner search.
  function FoundFn(detect: string -> BoardDetection): string -> bool {
    (path: string) => detect(path).Found?
  }

  function CornersFn(detect: string -> BoardDetection): string -> seq<Point> {
    (path: string) => if detect(path).Found? then detect(path).corners else []
  }

  /** The corner lists of the images where a board was found, in path order. */
  function FoundCorners(paths: seq<string>, detect: string -> BoardDetection): seq<seq<Point>> {
    FilterMap(paths, FoundFn(detect), CornersFn(detect))
  }

  /**
   * CameraCalibrator::findChessboardCorners over the given paths: every success
   * appends its corners to the image points and one copy of the grid to the
   * object points; the verdict is at least ten successes.
   */
  method FindChessboardCorners(paths: seq<string>, detect: string -> BoardDetection,
                               width: int, height: int, size: real,
                               imagePoints0: seq<seq<Point>>, objectPoints0: seq<seq<Point3>>)
    returns (ok: bool, imagePoints: seq<seq<Point>>, objectPoints: seq<seq<Point3>>)
    ensures imagePoints == imagePoints0 + FoundCorners(paths, detect)
    ensures |objectPoints| - |objectPoints0| == |imagePoints| - |imagePoints0|
    ensures objectPoints[..|objectPoints0|] == objectPoints0
    ensures forall k :: |objectPoints0| <= k < |objectPoints| ==> objectPoints[k] == ObjectGrid(width, height, size)
    ensures ok <==> |FoundCorners(paths, detect)| >= MinBoards
  {
    var successCount := 0;
    var grid := GenerateObjectCorners(width, height, size);
    imagePoints, objectPoints := imagePoints0, objectPoints0;
    for i := 0 to |paths|
      invariant imagePoints == imagePoints0 + FoundCorners(paths[..i], detect)
      invariant successCount == |imagePoints| - |imagePoints0| == |objectPoints| - |objectPoints0|
      invariant objectPoints[..|objectPoints0|] == objectPoints0
      invariant forall k :: |objectPoints0| <= k < |objectPoints| ==> objectPoints[k] == grid
    {
      FilterMapAppend(paths[..i], paths[i], FoundFn(detect), CornersFn(detect));
      assert paths[..i + 1] == paths[..i] + [paths[i]];
      match detect(paths[i])
      case Unreadable =>
      case NoBoard =>
      case Found(corners) =>
        imagePoints := imagePoints + [corners];
        objectPoints := objectPoints + [grid];
        successCount := successCount + 1;
    }
    assert paths[..|paths|] == paths;
    ok := successCount >= MinBoards;
  }

  /** How calibrateFromChessboard ends before the OpenCV calibration itself. */
  datatype CalibrationOutcome =
    | CannotOpenDirectory
    | NoImageFiles
    | TooFewBoards
    | ReadyToCalibrate(imagePoints: seq<seq<Point>>, objectPoints: seq<seq<Point3>>)

  /**
   * The early exits of calibrateFromChessboard: a directory that cannot be opened,
   * no image file in it, fewer than ten boards; otherwise the collected points go
   * to the calibration.
   */
  method CalibrateFromChessboard(dirOpens: bool, dir: string, entries: seq<string>,
                                 detect: string -> BoardDetection,
                                 width: int, height: int, size: real)
    returns (outcome: CalibrationOutcome)
    ensures !dirOpens <==> outcome == CannotOpenDirectory
    ensures outcome == NoImageFiles <==> dirOpens && ImagePaths(dir, entries) == []
    ensures outcome == TooFewBoards <==>
      dirOpens && ImagePaths(dir, entries) != [] && |FoundCorners(ImagePaths(dir, entries), detect)| < MinBoards
    ensures outcome.ReadyToCalibrate? ==>
      && outcome.imagePoints == FoundCorners(ImagePaths(dir, entries), detect)
      && |outcome.objectPoints| == |outcome.imagePoints| >= MinBoards
      && forall k :: 0 <= k < |outcome.objectPoints| ==> outcome.objectPoints[k] == ObjectGrid(width, height, size)
  {
    if !dirOpens {
      return CannotOpenDirectory;
    }
    var paths := CollectImagePaths(dir, entries);
    if |paths| == 0 {
      return NoImageFiles;
    }
    var ok, imagePoints, objectPoints := FindChessboardCorners(paths, detect, width, height, size, [], []);
    if !ok {
      return TooFewBoards;
    }
    return ReadyToCalibrate(imagePoints, objectPoints);
  }

  /** A 3x3 camera matrix and the five distortion coefficients k1, k2, p1, p2, k3. */
  datatype CameraParams = CameraParams(matrix: seq<seq<real>>, distortion: seq<real>)

  /** CameraCalibrator::generateDummyCameraParams. */
  function DummyCameraParams(imageWidth: int, imageHeight: int): (c: CameraParams)
    ensures |c.matrix| == 3 && forall r :: 0 <= r < 3 ==> |c.matrix[r]| == 3
    ensures |c.distortion| == 5
  {
    CameraParams(
      [[800.0, 0.0, imageWidth as real / 2.0],
       [0.0, 800.0, imageHeight as real / 2.0],
       [0.0, 0.0, 1.0]],
      [0.1, -0.1, 0.001, 0.001, 0.0])
  }

  /** Pinhole projection of a camera-frame point by a 3x3 matrix; nothing when it lands at infinity. */
  function Project(k: seq<seq<real>>, p: Point3): Option<Point>
    requires |k| == 3 && forall r :: 0 <= r < 3 ==> |k[r]| == 3
  {
    var u := k[0][0] * p.x + k[0][1] * p.y + k[0][2] * p.z;
    var v := k[1][0] * p.x + k[1][1] * p.y + k[1][2] * p.z;
    var w := k[2][0] * p.x + k[2][1] * p.y + k[2][2] * p.z;
    if w == 0.0 then None else Some(Point(u / w, v / w))
  }

  /**
   * The dummy camera has equal focal lengths of 800 pixels and its principal point
   * at the image centre: the optical axis lands on the centre, and a point at depth z
   * lands 800 x / z and 800 y / z away from it. Its k3 coefficient is zero.
   */
  lemma DummyCameraGeometry(imageWidth: int, imageHeight: int, p: Point3)
    requires p.z > 0.0
    ensures
      var c := DummyCameraParams(imageWidth, imageHeight);
      && Project(c.matrix, Point3(0.0, 0.0, p.z)) == Some(Point(imageWidth as real / 2.0, imageHeight as real / 2.0))
      && Project(c.matrix, p) == Some(Point(800.0 * p.x / p.z + imageWidth as real / 2.0,
                                            800.0 * p.y / p.z + imageHeight as real / 2.0))
      && c.distortion[4] == 0.0
  {
    var c := DummyCameraParams(imageWidth, imageHeight);
    var k := c.matrix;
    var cx, cy := imageWidth as real / 2.0, imageHeight as real / 2.0;
    assert k[0] == [800.0, 0.0, cx] && k[1] == [0.0, 800.0, cy] && k[2] == [0.0, 0.0, 1.0];
    var axis := Point3(0.0, 0.0, p.z);
    assert (cx * p.z) / p.z == cx && (cy * p.z) / p.z == cy;
    assert Project(k, axis).value.x == cx && Project(k, axis).value.y == cy;
    assert (800.0 * p.x + cx * p.z) / p.z == 800.0 * p.x / p.z + cx;
    assert (800.0 * p.y + cy * p.z) / p.z == 800.0 * p.y / p.z + cy;
    assert Project(k, p).value.x == 800.0 * p.x / p.z + cx;
    assert Project(k, p).value.y == 800.0 * p.y / p.z + cy;
  }
}

=== FILE: common.dfy ===
/** Optional values, standing in for the nullable pointers of the original code. */
module Options {
  datatype Option<+T> = None | Some(value: T)
}

/** Planar and spatial points with real coordinates (cv::Point2f / cv::Point3f without rounding). */
module Geometry {
  datatype Point = Point(x: real, y: real)

  datatype Point3 = Point3(x: real, y: real, z: real)

  function Add(a: Point, b: Point): Point {
    Point(a.x + b.x, a.y + b.y)
  }

  function Sub(a: Point, b: Point): Point {
    Point(a.x - b.x, a.y - b.y)
  }

  function Scale(a: Point, k: real): Point {
    Point(a.x * k, a.y * k)
  }
}

/**
 * The values a single-precision expression of the tracker's score can take once
 * a division by zero is possible: a finite value, an infinity, or NaN.
 * Rounding is not modelled: a finite value is an exact real.
 */
module FloatModel {
  datatype Float = Finite(value: real) | PosInf | NegInf | NaN

  /** std::numeric_limits<float>::max(), the sentinel of the original score loops. */
  const FltMax: real := 340282346638528859811704183484516925440.0

  /** IEEE `<`: false whenever an operand is NaN. */
  predicate Less(a: Float, b: Float) {
    match (a, b)
    case (Finite(u), Finite(v)) => u < v
    case (NegInf, Finite(_)) => true
    case (NegInf, PosInf) => true
    case (Finite(_), PosInf) => true
    case _ => false
  }

  /** std::max(a, b), which is `(a < b) ? b : a`. */
  function Max(a: Float, b: Float): Float {
    if Less(a, b) then b else a
  }

  /** Quotient of two finite reals, with the IEEE results of a zero divisor. */
  function Div(a: real, b: real): (r: Float)
    ensures r.Finite? <==> b != 0.0
    ensures r.Finite? ==> r.value * b == a
    ensures r == NaN <==> a == 0.0 && b == 0.0
    ensures b == 0.0 && a > 0.0 ==> r == PosInf
    ensures b == 0.0 && a < 0.0 ==> r == NegInf
  {
    if b != 0.0 then Finite(a / b)
    else if a > 0.0 then PosInf
    else if a < 0.0 then NegInf
    else NaN
  }

  /** The size-penalty damping `1 + 0.1 * (x - 1)` of the match score, lifted to Float. */
  function Damp(x: Float): Float {
    match x
    case Finite(v) => Finite(1.0 + 0.1 * (v - 1.0))
    case PosInf => PosInf
    case NegInf => NegInf
    case NaN => NaN
  }

  /** A finite real times a Float, with IEEE `0 * inf == NaN`. */
  function MulReal(d: real, x: Float): Float {
    match x
    case Finite(v) => Finite(d * v)
    case PosInf => if d > 0.0 then PosInf else if d < 0.0 then NegInf else NaN
    case NegInf => if d > 0.0 then NegInf else if d < 0.0 then PosInf else NaN
    case NaN => NaN
  }

  lemma LessTransitive(a: Float, b: Float, c: Float)
    requires Less(a, b) && Less(b, c)
    ensures Less(a, c)
  {
  }

  /** Apart from NaN, `<` is a strict total order. */
  lemma LessTotal(a: Float, b: Float)
    requires a != NaN && b != NaN && a != b
    ensures Less(a, b) || Less(b, a)
  {
  }

  /** std::max is the larger operand for the non-NaN values. */
  lemma MaxIsUpperBound(a: Float, b: Float)
    requires a != NaN && b != NaN
    ensures !Less(Max(a, b), a) && !Less(Max(a, b), b)
    ensures Max(a, b) == a || Max(a, b) == b
  {
  }
}

/**
 * The selection loop shared by the tracker's two searches: walk the candidates
 * in order, skip the ineligible ones (None), and keep the first one whose key is
 * strictly below the best so far, starting from the FltMax sentinel.
 */
module ArgMin {
  import opened Options
  import opened FloatModel

  /** A candidate the loop can pick: present, and strictly below the sentinel. */
  predicate Eligible(keys: seq<Option<Float>>, i: int)
    requires 0 <= i < |keys|
  {
    keys[i].Some? && Less(keys[i].value, Finite(FltMax))
  }

  /** k is eligible, beats every earlier eligible key strictly and no later one beats it. */
  predicate IsFirstMin(keys: seq<Option<Float>>, k: int) {
    && 0 <= k < |keys|
    && Eligible(keys, k)
    && (forall j :: 0 <= j < k && Eligible(keys, j) ==> Less(keys[k].value, keys[j].value))
    && (forall j :: k < j < |keys| && Eligible(keys, j) ==> !Less(keys[j].value, keys[k].value))
  }

  predicate NoneEligible(keys: seq<Option<Float>>) {
    forall j :: 0 <= j < |keys| ==> !Eligible(keys, j)
  }

  /** The loop from position i on, with the best index and key found so far. */
  function Scan(keys: seq<Option<Float>>, i: nat, best: Option<nat>, bestKey: Float): (Option<nat>, Float)
    decreases |keys| - i
  {
    if i >= |keys| then (best, bestKey)
    else if keys[i].Some? && Less(keys[i].value, bestKey) then Scan(keys, i + 1, Some(i), keys[i].value)
    else Scan(keys, i + 1, best, bestKey)
  }

  /** The whole loop: no pick yet, key FltMax. */
  function FirstMin(keys: seq<Option<Float>>): (Option<nat>, Float) {
    Scan(keys, 0, None, Finite(FltMax))
  }

  /** What the loop has established after looking at keys[..i]. */
  predicate ScanInvariant(keys: seq<Option<Float>>, i: nat, best: Option<nat>, bestKey: Float) {
    && i <= |keys|
    && (best.None? ==>
          bestKey == Finite(FltMax) && forall j :: 0 <= j < i ==> !Eligible(keys, j))
    && (best.Some? ==>
          && best.value < i
          && Eligible(keys, best.value)
          && bestKey == keys[best.value].value
          && (forall j :: 0 <= j < best.value && Eligible(keys, j) ==> Less(bestKey, keys[j].value))
          && (forall j :: best.value < j < i && Eligible(keys, j) ==> !Less(keys[j].value, bestKey)))
  }

  lemma {:induction false} ScanCorrect(keys: seq<Option<Float>>, i: nat, best: Option<nat>, bestKey: Float)
    requires ScanInvariant(keys, i, best, bestKey)
    ensures ScanInvariant(keys, |keys|, Scan(keys, i, best, bestKey).0, Scan(keys, i, best, bestKey).1)
    decreases |keys| - i
  {
    if i < |keys| {
      if keys[i].Some? && Less(keys[i].value, bestKey) {
        var k := keys[i].value;
        assert Eligible(keys, i) by {
          if best.Some? { LessTransitive(k, bestKey, Finite(FltMax)); }
        }
        forall j | 0 <= j < i && Eligible(keys, j)
          ensures Less(k, keys[j].value)
        {
          if best.None? {
            assert false;
          } else if j == best.value {
          } else if j < best.value {
            LessTransitive(k, bestKey, keys[j].value);
          } else {
            if keys[j].value != bestKey {
              LessTotal(keys[j].value, bestKey);
              LessTransitive(k, bestKey, keys[j].value);
            }
          }
        }
        ScanCorrect(keys, i + 1, Some(i), k);
      } else {
        ScanCorrect(keys, i + 1, best, bestKey);
      }
    }
  }

  /** The loop picks exactly the first minimal eligible key, and nothing when none is eligible. */
  lemma FirstMinSpec(keys: seq<Option<Float>>)
    ensures FirstMin(keys).0.None? <==> NoneEligible(keys)
    ensures FirstMin(keys).0.None? ==> FirstMin(keys).1 == Finite(FltMax)
    ensures FirstMin(keys).0.Some? ==>
              IsFirstMin(keys, FirstMin(keys).0.value)
              && FirstMin(keys).1 == keys[FirstMin(keys).0.value].value
  {
    ScanCorrect(keys, 0, None, Finite(FltMax));
  }

  /** There is at most one first minimum, so "the" chosen candidate is well defined. */
  lemma FirstMinUnique(keys: seq<Option<Float>>, a: int, b: int)
    requires IsFirstMin(keys, a) && IsFirstMin(keys, b)
    ensures a == b
  {
  }
}

/** Order-preserving filter-and-transform over sequences, and subsequences. */
module Sequences {
  /** f applied to the elements that satisfy keep, in their original order. */
  function FilterMap<A, B>(xs: seq<A>, keep: A -> bool, f: A -> B): seq<B>
    decreases |xs|
  {
    if |xs| == 0 then []
    else (if keep(xs[0]) then [f(xs[0])] else []) + FilterMap(xs[1..], keep, f)
  }

  /** Appending one element appends its image exactly when it is kept: one loop iteration. */
  lemma {:induction false} FilterMapAppend<A, B>(xs: seq<A>, x: A, keep: A -> bool, f: A -> B)
    ensures FilterMap(xs + [x], keep, f) == FilterMap(xs, keep, f) + (if keep(x) then [f(x)] else [])
    decreases |xs|
  {
    if |xs| > 0 {
      assert (xs + [x])[1..] == xs[1..] + [x];
      FilterMapAppend(xs[1..], x, keep, f);
    } else {
      assert (xs + [x])[1..] == [];
    }
  }

  lemma {:induction false} FilterMapConcat<A, B>(xs: seq<A>, ys: seq<A>, keep: A -> bool, f: A -> B)
    ensures FilterMap(xs + ys, keep, f) == FilterMap(xs, keep, f) + FilterMap(ys, keep, f)
    decreases |xs|
  {
    if |xs| > 0 {
      assert (xs + ys)[1..] == xs[1..] + ys;
      FilterMapConcat(xs[1..], ys, keep, f);
    } else {
      assert xs + ys == ys;
    }
  }

  /** y is in the output exactly when it is the image of some kept element. */
  lemma {:induction false} FilterMapMembership<A, B>(xs: seq<A>, keep: A -> bool, f: A -> B, y: B)
    ensures y in FilterMap(xs, keep, f) <==> exists i :: 0 <= i < |xs| && keep(xs[i]) && y == f(xs[i])
    decreases |xs|
  {
    if |xs| > 0 {
      FilterMapMembership(xs[1..], keep, f, y);
      if y in FilterMap(xs[1..], keep, f) {
        var i :| 0 <= i < |xs[1..]| && keep(xs[1..][i]) && y == f(xs[1..][i]);
        assert xs[i + 1] == xs[1..][i];
      }
      if i :| 0 <= i < |xs| && keep(xs[i]) && y == f(xs[i]) {
        if i > 0 {
          assert xs[1..][i - 1] == xs[i];
        }
      }
    }
  }

  /** xs can be obtained from ys by deleting elements. */
  predicate IsSubsequence<T(==)>(xs: seq<T>, ys: seq<T>)
    decreases |ys|
  {
    if |xs| == 0 then true
    else if |ys| == 0 then false
    else if xs[0] == ys[0] then IsSubsequence(xs[1..], ys[1..])
    else IsSubsequence(xs, ys[1..])
  }

  /** Dropping the head of a subsequence keeps it a subsequence. */
  lemma {:induction false} SubsequenceDropFront<T>(xs: seq<T>, ys: seq<T>)
    requires |xs| > 0 && IsSubsequence(xs, ys)
    ensures IsSubsequence(xs[1..], ys)
    decreases |ys|, 1
  {
    if xs[0] == ys[0] {
      SubsequenceConsRight(xs[1..], ys);
    } else {
      SubsequenceDropFront(xs, ys[1..]);
      SubsequenceConsRight(xs[1..], ys);
    }
  }

  /** A subsequence of the tail is a subsequence of the whole. */
  lemma {:induction false} SubsequenceConsRight<T>(xs: seq<T>, ys: seq<T>)
    requires |ys| > 0 && IsSubsequence(xs, ys[1..])
    ensures IsSubsequence(xs, ys)
    decreases |ys|, 0
  {
    if |xs| > 0 && xs[0] == ys[0] {
      SubsequenceDropFront(xs, ys[1..]);
    }
  }

  /** f applied to every element. */
  function Map<A, B>(xs: seq<A>, f: A -> B): (ys: seq<B>)
    ensures |ys| == |xs| && forall i :: 0 <= i < |xs| ==> ys[i] == f(xs[i])
  {
    seq(|xs|, i requires 0 <= i < |xs| => f(xs[i]))
  }

  /** The output is the images of all elements with some deleted, in order, so it is no longer than the input. */
  lemma {:induction false} FilterMapIsSubsequence<A, B>(xs: seq<A>, keep: A -> bool, f: A -> B)
    ensures IsSubsequence(FilterMap(xs, keep, f), Map(xs, f))
    ensures |FilterMap(xs, keep, f)| <= |xs|
    decreases |xs|
  {
    if |xs| > 0 {
      var all := Map(xs, f);
      var out := FilterMap(xs, keep, f);
      var rest := FilterMap(xs[1..], keep, f);
      FilterMapIsSubsequence(xs[1..], keep, f);
      assert all[1..] == Map(xs[1..], f);
      if keep(xs[0]) {
        assert out[1..] == rest;
      } else {
        assert out == rest;
        if |out| > 0 && out[0] == all[0] {
          SubsequenceDropFront(out, all[1..]);
        }
      }
    }
  }
}

=== FILE: detector.dfy ===
/**
 * The selection loop of Detector::findLights. Each contour arrives already
 * reduced to its point count and the light built from its minimum-area
 * rectangle; segmentation, contour extraction and that construction are not
 * part of this model.
 */
module Detection {
  import opened Geometry
  import opened Armors
  import opened Sequences

  datatype LightParams = LightParams(minRatio: real, maxRatio: real, maxAngle: real)

  /** `detectColor` is the integer value of the configured colour enumerator. */
  datatype DetectorParams = DetectorParams(light: LightParams, detectColor: int)

  /** A contour: how many points it has, and the light its bounding rectangle gives. */
  datatype Contour = Contour(pointCount: nat, light: Light)

  /** The binary image, seen only through its emptiness and its external contours. */
  datatype BinaryImage = EmptyImage | Segmented(contours: seq<Contour>)

  /** Added to the length before dividing (1e-5f). */
  const RatioEpsilon: real := 0.00001

  /** Fewer points than this and the contour is skipped. */
  const MinContourPoints: nat := 5

  /**
   * Both strict bounds of the light test. A zero divisor gives an infinite or NaN
   * ratio in the original, which fails one of the two strict ratio bounds for
   * finite settings; here it fails the test outright.
   */
  predicate Accepts(p: LightParams, l: Light) {
    var den := l.length + RatioEpsilon;
    && den != 0.0
    && p.minRatio < l.width / den < p.maxRatio
    && l.tiltAngle < p.maxAngle
  }

  predicate Kept(p: DetectorParams, c: Contour) {
    c.pointCount >= MinContourPoints && Accepts(p.light, c.light)
  }

  /** A kept light carries the detection colour. */
  function Stamp(p: DetectorParams, l: Light): (r: Light)
    ensures r.color == p.detectColor
    ensures r.(color := l.color) == l
  {
    l.(color := p.detectColor)
  }

  // KeepFn and StampFn name the filter's two functions once, so that FilterMap's
  // lemmas are applied to the same function values the definition uses.
  function KeepFn(p: DetectorParams): Contour -> bool {
    (c: Contour) => Kept(p, c)
  }

  function StampFn(p: DetectorParams): Contour -> Light {
    (c: Contour) => Stamp(p, c.light)
  }

  /** Detector::findLights: nothing from an empty image, otherwise the kept contours' lights, stamped, in order. */
  function FindLights(p: DetectorParams, img: BinaryImage): seq<Light> {
    match img
    case EmptyImage => []
    case Segmented(cs) => FilterMap(cs, KeepFn(p), StampFn(p))
  }

  /** The loop as the original writes it, over the contours in order. */
  method FindLightsLoop(p: DetectorParams, img: BinaryImage) returns (lights: seq<Light>)
    ensures lights == FindLights(p, img)
    ensures forall i :: 0 <= i < |lights| ==> lights[i].color == p.detectColor
  {
    lights := [];
    if img.EmptyImage? {
      return;
    }
    var cs := img.contours;
    for i := 0 to |cs|
      invariant lights == FilterMap(cs[..i], KeepFn(p), StampFn(p))
      invariant forall j :: 0 <= j < |lights| ==> lights[j].color == p.detectColor
    {
      FilterMapAppend(cs[..i], cs[i], KeepFn(p), StampFn(p));
      assert cs[..i + 1] == cs[..i] + [cs[i]];
      if cs[i].pointCount < MinContourPoints {
        continue;
      }
      var light := cs[i].light;
      var den := light.length + RatioEpsilon;
      if den != 0.0 {
        var ratio := light.width / den;
        var ratioOk := p.light.minRatio < ratio && ratio < p.light.maxRatio;
        var angleOk := light.tiltAngle < p.light.maxAngle;
        if ratioOk && angleOk {
          lights := lights + [Stamp(p, light)];
        }
      }
    }
    assert cs[..|cs|] == cs;
  }

  /** An empty image yields no lights. */
  lemma EmptyImageHasNoLights(p: DetectorParams)
    ensures FindLights(p, EmptyImage) == []
  {
  }

  /**
   * A light is in the output exactly when some contour has at least five points,
   * passes both strict ratio bounds and the strict angle bound, and gives that
   * light once stamped with the detection colour.
   */
  lemma LightMembership(p: DetectorParams, cs: seq<Contour>, x: Light)
    ensures x in FindLights(p, Segmented(cs)) <==>
      exists i :: 0 <= i < |cs| && Kept(p, cs[i]) && x == Stamp(p, cs[i].light)
  {
    FilterMapMembership(cs, KeepFn(p), StampFn(p), x);
  }

  /** Every light found carries the detection colour. */
  lemma FoundLightsHaveDetectColor(p: DetectorParams, img: BinaryImage)
    ensures forall l :: l in FindLights(p, img) ==> l.color == p.detectColor
  {
    if img.Segmented? {
      forall l | l in FindLights(p, img) ensures l.color == p.detectColor {
        FilterMapMembership(img.contours, KeepFn(p), StampFn(p), l);
      }
    }
  }

  /** A contour with fewer than five points contributes nothing, wherever it stands. */
  lemma ShortContourContributesNothing(p: DetectorParams, before: seq<Contour>, c: Contour, after: seq<Contour>)
    requires c.pointCount < MinContourPoints
    ensures FindLights(p, Segmented(before + [c] + after)) == FindLights(p, Segmented(before + after))
  {
    FilterMapConcat(before + [c], after, KeepFn(p), StampFn(p));
    FilterMapConcat(before, after, KeepFn(p), StampFn(p));
    FilterMapAppend(before, c, KeepFn(p), StampFn(p));
  }

  /** The output keeps the contour order and drops some lights: at most one light per contour. */
  lemma LightsAreOrderedSubsequence(p: DetectorParams, cs: seq<Contour>)
    ensures IsSubsequence(FindLights(p, Segmented(cs)), Map(cs, StampFn(p)))
    ensures |FindLights(p, Segmented(cs))| <= |cs|
  {
    FilterMapIsSubsequence(cs, KeepFn(p), StampFn(p));
  }
}

=== FILE: kalman.dfy ===
/**
 * The tracker's constant-velocity position filter: state (x, vx, y, vy), a fixed
 * 0.033 s step, position-only measurements, and an `initialized` guard.
 * The error covariance and the gain derived from it are not modelled: every
 * correction takes the 4x2 gain as an input.
 */
module Kalman {
  import opened Geometry

  /** Time step baked into the transition matrix (30 frames per second). */
  const Dt: real := 0.033

  predicate IsMatrix(m: seq<seq<real>>, rows: nat, cols: nat) {
    |m| == rows && forall i :: 0 <= i < rows ==> |m[i]| == cols
  }

  type Vec4 = v: seq<real> | |v| == 4 witness [0.0, 0.0, 0.0, 0.0]

  /** A Kalman gain: four rows (state) by two columns (measurement). */
  type Gain = m: seq<seq<real>> | IsMatrix(m, 4, 2) witness [[0.0, 0.0], [0.0, 0.0], [0.0, 0.0], [0.0, 0.0]]

  function Dot(a: seq<real>, b: seq<real>): real
    requires |a| == |b|
  {
    if |a| == 0 then 0.0 else a[0] * b[0] + Dot(a[1..], b[1..])
  }

  lemma DotOfTwo(a: seq<real>, b: seq<real>)
    requires |a| == |b| == 2
    ensures Dot(a, b) == a[0] * b[0] + a[1] * b[1]
  {
    assert Dot(a[1..][1..], b[1..][1..]) == 0.0;
  }

  lemma DotOfFour(a: seq<real>, b: seq<real>)
    requires |a| == |b| == 4
    ensures Dot(a, b) == a[0] * b[0] + a[1] * b[1] + a[2] * b[2] + a[3] * b[3]
  {
    DotOfTwo(a[2..], b[2..]);
    assert a[1..][1..] == a[2..] && b[1..][1..] == b[2..];
  }

  function MatVec(m: seq<seq<real>>, v: seq<real>): (r: seq<real>)
    requires forall i :: 0 <= i < |m| ==> |m[i]| == |v|
    ensures |r| == |m|
    ensures forall i :: 0 <= i < |m| ==> r[i] == Dot(m[i], v)
  {
    seq(|m|, i requires 0 <= i < |m| => Dot(m[i], v))
  }

  function VecAdd(a: seq<real>, b: seq<real>): (r: seq<real>)
    requires |a| == |b|
    ensures |r| == |a| && forall i :: 0 <= i < |a| ==> r[i] == a[i] + b[i]
  {
    seq(|a|, i requires 0 <= i < |a| => a[i] + b[i])
  }

  /** The identity with Dt at (0,1) and (2,3). */
  function TransitionMatrix(): (a: seq<seq<real>>)
    ensures IsMatrix(a, 4, 4)
  {
    [[1.0, Dt, 0.0, 0.0],
     [0.0, 1.0, 0.0, 0.0],
     [0.0, 0.0, 1.0, Dt],
     [0.0, 0.0, 0.0, 1.0]]
  }

  /** Ones at (0,0) and (1,2), zeros elsewhere. */
  function MeasurementMatrix(): (h: seq<seq<real>>)
    ensures IsMatrix(h, 2, 4)
  {
    [[1.0, 0.0, 0.0, 0.0],
     [0.0, 0.0, 1.0, 0.0]]
  }

  /** The transition advances each position by Dt times its velocity and keeps both velocities. */
  lemma TransitionIsConstantVelocity(s: Vec4)
    ensures MatVec(TransitionMatrix(), s) == [s[0] + Dt * s[1], s[1], s[2] + Dt * s[3], s[3]]
  {
    var a := TransitionMatrix();
    DotOfFour(a[0], s);
    DotOfFour(a[1], s);
    DotOfFour(a[2], s);
    DotOfFour(a[3], s);
    var r := MatVec(a, s);
    var expected := [s[0] + Dt * s[1], s[1], s[2] + Dt * s[3], s[3]];
    assert |r| == |expected|;
    forall i | 0 <= i < 4 ensures r[i] == expected[i] {
      assert a[i] == TransitionMatrix()[i];
    }
  }

  /** The measurement reads state components 0 and 2 (the positions) and nothing else. */
  lemma MeasurementObservesPositionOnly(s: Vec4)
    ensures MatVec(MeasurementMatrix(), s) == [s[0], s[2]]
  {
    var h := MeasurementMatrix();
    DotOfFour(h[0], s);
    DotOfFour(h[1], s);
  }

  /** The wrapper's state: the guard, OpenCV's prior and posterior state, and the exposed position. */
  datatype Filter = Filter(initialized: bool, statePre: Vec4, statePost: Vec4, prediction: Point)

  /** KalmanFilter::KalmanFilter: not initialized, zero state, prediction (0, 0). */
  function Fresh(): Filter {
    Filter(false, [0.0, 0.0, 0.0, 0.0], [0.0, 0.0, 0.0, 0.0], Point(0.0, 0.0))
  }

  function PositionOf(v: Vec4): Point {
    Point(v[0], v[2])
  }

  /** KalmanFilter::init: posterior at p with zero velocity, marked ready, prediction p. */
  function Init(f: Filter, p: Point): (r: Filter)
    ensures r.initialized
    ensures PositionOf(r.statePost) == p && r.statePost[1] == 0.0 && r.statePost[3] == 0.0
    ensures r.prediction == p
    ensures r.statePre == f.statePre
  {
    f.(statePost := [p.x, 0.0, p.y, 0.0], initialized := true, prediction := p)
  }

  /**
   * KalmanFilter::predict. Before init it returns (0, 0) and changes nothing.
   * Otherwise the prior is the transition applied to the posterior; as in
   * cv::KalmanFilter::predict the prior is also copied into the posterior.
   */
  function Predict(f: Filter): (r: (Filter, Point))
    ensures !f.initialized ==> r == (f, Point(0.0, 0.0))
    ensures f.initialized ==>
      && r.0.initialized
      && r.1 == r.0.prediction == PositionOf(r.0.statePre)
      && r.0.statePost == r.0.statePre
      && r.1 == Point(f.statePost[0] + Dt * f.statePost[1], f.statePost[2] + Dt * f.statePost[3])
      && r.0.statePre[1] == f.statePost[1] && r.0.statePre[3] == f.statePost[3]
  {
    if !f.initialized then (f, Point(0.0, 0.0))
    else
      var pre := MatVec(TransitionMatrix(), f.statePost);
      TransitionIsConstantVelocity(f.statePost);
      var g := f.(statePre := pre, statePost := pre, prediction := PositionOf(pre));
      (g, g.prediction)
  }

  /**
   * KalmanFilter::update. Before init it is a no-op. Otherwise the posterior is
   * prior + K (z - H prior), and the exposed position is the posterior's.
   */
  function Update(f: Filter, z: Point, k: Gain): (r: Filter)
    ensures !f.initialized ==> r == f
    ensures f.initialized ==>
      && r.initialized
      && r.statePre == f.statePre
      && r.prediction == PositionOf(r.statePost)
  {
    if !f.initialized then f
    else
      var innovation := [z.x - MatVec(MeasurementMatrix(), f.statePre)[0],
                         z.y - MatVec(MeasurementMatrix(), f.statePre)[1]];
      var post := VecAdd(f.statePre, MatVec(k, innovation));
      f.(statePost := post, prediction := PositionOf(post))
  }

  /** A measurement that agrees with the prior leaves the posterior at the prior, whatever the gain. */
  lemma UpdateAtPriorIsFixedPoint(f: Filter, k: Gain)
    requires f.initialized
    ensures Update(f, PositionOf(f.statePre), k).statePost == f.statePre
  {
    var s := f.statePre;
    MeasurementObservesPositionOnly(s);
    var innovation := [0.0, 0.0];
    forall i | 0 <= i < 4 ensures Dot(k[i], innovation) == 0.0 {
      DotOfTwo(k[i], innovation);
    }
  }

  /**
   * The correction formula with the gain that trusts the measurement fully: the
   * posterior position is the measurement and the velocities are kept. The filter
   * itself never produces this gain: with measurement noise 5 I and prior position
   * variance P, its position gain is P / (P + 5), below 1. So this is a statement
   * about the formula, not about a frame the tracker can reach.
   */
  lemma UpdateWithFullTrustGain(f: Filter, z: Point)
    requires f.initialized
    ensures
      var r := Update(f, z, [[1.0, 0.0], [0.0, 0.0], [0.0, 1.0], [0.0, 0.0]]);
      && r.prediction == z
      && r.statePost[1] == f.statePre[1] && r.statePost[3] == f.statePre[3]
  {
    var k: Gain := [[1.0, 0.0], [0.0, 0.0], [0.0, 1.0], [0.0, 0.0]];
    var s := f.statePre;
    MeasurementObservesPositionOnly(s);
    var innovation := [z.x - s[0], z.y - s[2]];
    forall i | 0 <= i < 4 ensures Dot(k[i], innovation) == k[i][0] * innovation[0] + k[i][1] * innovation[1] {
      DotOfTwo(k[i], innovation);
    }
  }

  /** A filter started at p, predicting n times, stays at p: zero velocity is never changed by prediction. */
  lemma {:induction false} PredictFromRestStaysPut(f: Filter, p: Point, n: nat)
    ensures PositionOf(PredictN(Init(f, p), n).statePost) == p
    ensures PredictN(Init(f, p), n).statePost[1] == 0.0 && PredictN(Init(f, p), n).statePost[3] == 0.0
    ensures PredictN(Init(f, p), n).initialized
  {
    if n > 0 {
      PredictFromRestStaysPut(f, p, n - 1);
    }
  }

  /** n calls of predict. */
  function PredictN(f: Filter, n: nat): Filter {
    if n == 0 then f else Predict(PredictN(f, n - 1)).0
  }
}

=== FILE: tracker.dfy ===
/**
 * The per-frame tracker: a four-state machine (LOST, DETECTING, TRACKING,
 * TEMP_LOST) with a detect counter, a lost counter, the tracked armor (held as
 * a copy) and the position filter. One call of Step is one call of
 * Tracker::update; it returns the new tracker and the filter calls it made.
 */
module Tracking {
  import opened Options
  import opened Geometry
  import opened FloatModel
  import opened ArgMin
  import opened Armors
  import Kalman

  datatype State = Lost | Detecting | Tracking | TempLost

  /**
   * Settings whose definitions live in a header that is not part of this model:
   * the two thresholds, the match gate, Armor::isValid, and cv::norm (the
   * Euclidean length, a square root, which Dafny's reals do not provide).
   */
  datatype Params = Params(trackingThres: int, lostThres: int, maxMatchDistance: real,
                           valid: Armor -> bool, norm: Point -> real)

  datatype Tracker = Tracker(state: State, isTracking: bool, tracked: Option<Armor>,
                             detectCount: int, lostCount: int, predicted: Point,
                             filter: Kalman.Filter)

  /** A call the tracker makes on its filter during one update. */
  datatype FilterCall = CallInit(at: Point) | CallPredict | CallUpdate(measurement: Point)

  datatype StepResult = StepResult(tracker: Tracker, calls: seq<FilterCall>)

  /** The assumed image centre, from which the LOST branch measures distances. */
  const ImageCenter: Point := Point(640.0, 360.0)

  /** Tracker::reset: back to LOST with nothing tracked; the filter and the last prediction are kept. */
  function Reset(t: Tracker): (r: Tracker)
    ensures r.state == Lost && !r.isTracking && r.tracked == None
    ensures r.detectCount == 0 && r.lostCount == 0
    ensures r.filter == t.filter && r.predicted == t.predicted
  {
    t.(state := Lost, isTracking := false, tracked := None, detectCount := 0, lostCount := 0)
  }

  /** Tracker::Tracker: a fresh filter, then reset. */
  function Initial(): Tracker {
    Reset(Tracker(Lost, false, None, 0, 0, Point(0.0, 0.0), Kalman.Fresh()))
  }

  /** Applies the recorded filter calls, in order. */
  function Replay(f: Kalman.Filter, calls: seq<FilterCall>, gain: Kalman.Gain): Kalman.Filter
    decreases |calls|
  {
    if |calls| == 0 then f
    else
      var g := match calls[0]
        case CallInit(p) => Kalman.Init(f, p)
        case CallPredict => Kalman.Predict(f).0
        case CallUpdate(z) => Kalman.Update(f, z, gain);
      Replay(g, calls[1..], gain)
  }

  /**
   * Tracker::init: an invalid armor resets and calls nothing; a valid one starts
   * DETECTING with one detection, no lost frame and the flag off, tracks the armor
   * and initialises the filter at its centre with zero velocity.
   */
  function InitOn(p: Params, t: Tracker, a: Armor): (r: StepResult)
    ensures !p.valid(a) ==> r == StepResult(Reset(t), [])
    ensures p.valid(a) ==>
      && r.tracker.state == Detecting && !r.tracker.isTracking
      && r.tracker.detectCount == 1 && r.tracker.lostCount == 0
      && r.tracker.tracked == Some(a)
      && r.tracker.filter.initialized
      && Kalman.PositionOf(r.tracker.filter.statePost) == a.Center()
      && r.tracker.filter.statePost[1] == 0.0 && r.tracker.filter.statePost[3] == 0.0
      && r.tracker.predicted == t.predicted
      && r.calls == [CallInit(a.Center())]
  {
    if !p.valid(a) then StepResult(Reset(t), [])
    else
      StepResult(t.(filter := Kalman.Init(t.filter, a.Center()), tracked := Some(a),
                    detectCount := 1, lostCount := 0, state := Detecting, isTracking := false),
                 [CallInit(a.Center())])
  }

  /** Distance keys of the acquisition loop: invalid armors are skipped. */
  function CenterKeys(p: Params, armors: seq<Armor>): (keys: seq<Option<Float>>)
    ensures |keys| == |armors|
  {
    seq(|armors|, i requires 0 <= i < |armors| =>
      if p.valid(armors[i]) then Some(Finite(p.norm(Sub(armors[i].Center(), ImageCenter)))) else None)
  }

  /** The LOST-state loop: the first valid armor nearest the image centre, or armors[0] if none beats FltMax. */
  function ClosestIndex(p: Params, armors: seq<Armor>): (k: nat)
    requires |armors| > 0
    ensures k < |armors|
    ensures NoneEligible(CenterKeys(p, armors)) ==> k == 0
    ensures !NoneEligible(CenterKeys(p, armors)) ==> IsFirstMin(CenterKeys(p, armors), k)
  {
    var keys := CenterKeys(p, armors);
    FirstMinSpec(keys);
    match FirstMin(keys).0
    case None => 0
    case Some(i) => i
  }

  /** max(a, b) / min(a, b) as the original computes it, infinities and NaN included. */
  function SizeRatio(a: real, b: real): (r: Float)
    ensures a > 0.0 && b > 0.0 ==> r.Finite? && r.value >= 1.0
  {
    var hi := if a < b then b else a;
    var lo := if b < a then b else a;
    if a > 0.0 && b > 0.0 then
      QuotientAtLeastOne(hi, lo);
      Div(hi, lo)
    else
      Div(hi, lo)
  }

  lemma QuotientAtLeastOne(hi: real, lo: real)
    requires hi >= lo > 0.0
    ensures hi / lo >= 1.0
  {
    assert hi / lo * lo == hi;
  }

  /**
   * Tracker::calculateMatchScore. Without the tracking flag or a tracked armor it is
   * the FltMax sentinel. With positive widths and heights on both armors the size
   * penalty is at least 1, so the score is finite and at least the (non-negative)
   * distance from the predicted position.
   */
  function MatchScore(p: Params, t: Tracker, a: Armor): (r: Float)
    ensures !t.isTracking || t.tracked.None? ==> r == Finite(FltMax)
    ensures
      && t.isTracking && t.tracked.Some?
      && a.Width() > 0.0 && a.Height() > 0.0
      && t.tracked.value.Width() > 0.0 && t.tracked.value.Height() > 0.0
      && p.norm(Sub(t.predicted, a.Center())) >= 0.0
      ==> r.Finite? && r.value >= p.norm(Sub(t.predicted, a.Center())) >= 0.0
  {
    if !t.isTracking || t.tracked.None? then Finite(FltMax)
    else
      var tracked := t.tracked.value;
      var distance := p.norm(Sub(t.predicted, a.Center()));
      var widthRatio := SizeRatio(a.Width(), tracked.Width());
      var heightRatio := SizeRatio(a.Height(), tracked.Height());
      var sizePenalty := Max(widthRatio, heightRatio);
      assert
        && a.Width() > 0.0 && a.Height() > 0.0 && tracked.Width() > 0.0 && tracked.Height() > 0.0
        && distance >= 0.0
        ==> distance * (1.0 + 0.1 * (sizePenalty.value - 1.0)) >= distance
      by {
        if a.Width() > 0.0 && a.Height() > 0.0 && tracked.Width() > 0.0 && tracked.Height() > 0.0 && distance >= 0.0 {
          assert sizePenalty.Finite? && sizePenalty.value >= 1.0;
          assert 1.0 + 0.1 * (sizePenalty.value - 1.0) >= 1.0;
        }
      }
      MulReal(distance, Damp(sizePenalty))
  }

  /** Score keys of the match loop: invalid armors are skipped. */
  function ScoreKeys(p: Params, t: Tracker, armors: seq<Armor>): (keys: seq<Option<Float>>)
    ensures |keys| == |armors|
  {
    seq(|armors|, i requires 0 <= i < |armors| =>
      if p.valid(armors[i]) then Some(MatchScore(p, t, armors[i])) else None)
  }

  /** Tracker::selectBestMatch, returning the index of the match. */
  function SelectBestMatch(p: Params, t: Tracker, armors: seq<Armor>): (m: Option<nat>)
    ensures m.Some? ==> m.value < |armors| && p.valid(armors[m.value])
  {
    if |armors| == 0 || !t.isTracking then None
    else
      var keys := ScoreKeys(p, t, armors);
      FirstMinSpec(keys);
      var (best, bestScore) := FirstMin(keys);
      if best.Some? && Less(bestScore, Finite(p.maxMatchDistance)) then best else None
  }

  /**
   * The match is the first valid armor of minimal score, reported only when that
   * score is below the match gate; without armors or the tracking flag there is none.
   */
  lemma SelectBestMatchSpec(p: Params, t: Tracker, armors: seq<Armor>)
    ensures |armors| == 0 || !t.isTracking ==> SelectBestMatch(p, t, armors) == None
    ensures SelectBestMatch(p, t, armors).Some? <==>
      && |armors| > 0 && t.isTracking
      && exists k :: IsFirstMin(ScoreKeys(p, t, armors), k)
                  && Less(MatchScore(p, t, armors[k]), Finite(p.maxMatchDistance))
    ensures SelectBestMatch(p, t, armors).Some? ==>
      var k := SelectBestMatch(p, t, armors).value;
      && IsFirstMin(ScoreKeys(p, t, armors), k)
      && Less(MatchScore(p, t, armors[k]), Finite(p.maxMatchDistance))
  {
    if |armors| > 0 && t.isTracking {
      var keys := ScoreKeys(p, t, armors);
      FirstMinSpec(keys);
      forall k | IsFirstMin(keys, k)
        ensures FirstMin(keys).0 == Some(k)
      {
        FirstMinUnique(keys, k, FirstMin(keys).0.value);
      }
    }
  }

  /** The tracker as the selection sees it: in TRACKING and TEMP_LOST the filter has just predicted. */
  function Prepared(t: Tracker): Tracker {
    if t.state == Tracking || t.state == TempLost then
      var (f, pos) := Kalman.Predict(t.filter);
      t.(filter := f, predicted := pos)
    else t
  }

  /**
   * Tracker::update. Only TRACKING and TEMP_LOST predict, once and first; only a
   * DETECTING match can switch the tracking flag on, and only LOST can initialise
   * the filter. The per-state lemmas below state each branch in full.
   */
  function Step(p: Params, t: Tracker, armors: seq<Armor>, gain: Kalman.Gain): (r: StepResult)
    ensures t.state == Tracking || t.state == TempLost ==>
      |r.calls| >= 1 && r.calls[0] == CallPredict && multiset(r.calls)[CallPredict] == 1
    ensures t.state == Lost || t.state == Detecting ==> CallPredict !in r.calls
    ensures r.tracker.isTracking && !t.isTracking ==>
      t.state == Detecting && SelectBestMatch(p, t, armors).Some?
    ensures t.state != Lost ==> forall i :: 0 <= i < |r.calls| ==> !r.calls[i].CallInit?
  {
    match t.state
    case Lost =>
      if |armors| == 0 then StepResult(t, [])
      else InitOn(p, t, armors[ClosestIndex(p, armors)])
    case Detecting =>
      var m := if |armors| > 0 then SelectBestMatch(p, t, armors) else None;
      if m.Some? then
        var a := armors[m.value];
        var t1 := t.(detectCount := t.detectCount + 1, tracked := Some(a),
                     filter := Kalman.Update(t.filter, a.Center(), gain));
        var t2 := if t1.detectCount >= p.trackingThres then t1.(state := Tracking, isTracking := true) else t1;
        StepResult(t2, [CallUpdate(a.Center())])
      else
        StepResult(t.(detectCount := 0, state := Lost), [])
    case Tracking =>
      var t1 := Prepared(t);
      var m := if |armors| > 0 then SelectBestMatch(p, t1, armors) else None;
      if m.Some? then
        var a := armors[m.value];
        var f := Kalman.Update(t1.filter, a.Center(), gain);
        StepResult(t1.(tracked := Some(a), filter := f, lostCount := 0, predicted := f.prediction),
                   [CallPredict, CallUpdate(a.Center())])
      else
        var lost := t1.lostCount + 1;
        StepResult(t1.(lostCount := lost, state := if lost >= p.lostThres then TempLost else Tracking),
                   [CallPredict])
    case TempLost =>
      var t1 := Prepared(t);
      var m := if |armors| > 0 then SelectBestMatch(p, t1, armors) else None;
      if m.Some? then
        var a := armors[m.value];
        StepResult(t1.(tracked := Some(a), filter := Kalman.Update(t1.filter, a.Center(), gain),
                       lostCount := 0, state := Tracking),
                   [CallPredict, CallUpdate(a.Center())])
      else
        var lost := t1.lostCount + 1;
        var t2 := t1.(lostCount := lost);
        StepResult(if lost >= 2 * p.lostThres then Reset(t2) else t2, [CallPredict])
  }

  /** The filter the step leaves behind is exactly the effect of the calls it reports. */
  lemma StepFilterFollowsCalls(p: Params, t: Tracker, armors: seq<Armor>, gain: Kalman.Gain)
    ensures Step(p, t, armors, gain).tracker.filter == Replay(t.filter, Step(p, t, armors, gain).calls, gain)
  {
    var r := Step(p, t, armors, gain);
    if t.state == Tracking || t.state == TempLost {
      var f1 := Kalman.Predict(t.filter).0;
      assert Prepared(t).filter == f1;
      if |r.calls| == 2 {
        var z := r.calls[1].measurement;
        assert Replay(t.filter, r.calls, gain) == Replay(f1, [CallUpdate(z)], gain);
        assert Replay(f1, [CallUpdate(z)], gain) == Replay(Kalman.Update(f1, z, gain), [], gain);
      } else {
        assert Replay(t.filter, r.calls, gain) == Replay(f1, [], gain);
      }
    } else if |r.calls| == 1 {
      assert r.calls[1..] == [];
    }
  }

  /** LOST with no armors stays LOST and touches nothing. */
  lemma LostIgnoresEmptyFrame(p: Params, t: Tracker, gain: Kalman.Gain)
    requires t.state == Lost
    ensures Step(p, t, [], gain) == StepResult(t, [])
  {
  }

  /**
   * LOST with armors: it starts DETECTING on the first valid armor nearest the
   * image centre, with the filter initialised at that armor's centre; when the
   * loop picks nothing it falls back to armors[0], and an invalid armor resets.
   */
  lemma LostAcquires(p: Params, t: Tracker, armors: seq<Armor>, gain: Kalman.Gain)
    requires t.state == Lost && |armors| > 0
    ensures
      var r := Step(p, t, armors, gain);
      var k := ClosestIndex(p, armors);
      && (r.tracker.state == Detecting <==> !NoneEligible(CenterKeys(p, armors)) || p.valid(armors[0]))
      && (r.tracker.state == Detecting ==>
            && r.tracker.detectCount == 1 && r.tracker.lostCount == 0 && !r.tracker.isTracking
            && r.tracker.tracked == Some(armors[k]) && r.tracker.predicted == t.predicted
            && r.tracker.filter == Kalman.Init(t.filter, armors[k].Center())
            && r.calls == [CallInit(armors[k].Center())])
      && (r.tracker.state != Detecting ==> r == StepResult(Reset(t), []))
  {
    var keys := CenterKeys(p, armors);
    var k := ClosestIndex(p, armors);
    if !NoneEligible(keys) {
      assert keys[k].Some?;
    }
  }

  /** When every valid armor's distance is below FltMax, LOST starts DETECTING exactly when some armor is valid. */
  lemma LostAcquiresIffSomeValid(p: Params, t: Tracker, armors: seq<Armor>, gain: Kalman.Gain)
    requires t.state == Lost && |armors| > 0
    requires forall i :: 0 <= i < |armors| && p.valid(armors[i]) ==>
               p.norm(Sub(armors[i].Center(), ImageCenter)) < FltMax
    ensures Step(p, t, armors, gain).tracker.state == Detecting <==>
              exists i :: 0 <= i < |armors| && p.valid(armors[i])
  {
    LostAcquires(p, t, armors, gain);
    var keys := CenterKeys(p, armors);
    if i :| 0 <= i < |armors| && p.valid(armors[i]) {
      assert Eligible(keys, i);
    }
  }

  /** One valid armor at (500, 500) seen from LOST: DETECTING, count 1, filter initialised at (500, 500). */
  lemma AcquireSingleArmorExample(p: Params, t: Tracker, gain: Kalman.Gain)
    requires t.state == Lost
    ensures
      var l := Light(Point(480.0, 500.0), Point(480.0, 480.0), Point(480.0, 520.0), 40.0, 8.0, 0.0, 0);
      var r := Light(Point(520.0, 500.0), Point(520.0, 480.0), Point(520.0, 520.0), 40.0, 8.0, 0.0, 0);
      var a := Armor(l, r, Small);
      p.valid(a) ==>
        var s := Step(p, t, [a], gain).tracker;
        && s.state == Detecting && s.detectCount == 1
        && s.filter.initialized && Kalman.PositionOf(s.filter.statePost) == Point(500.0, 500.0)
  {
    var l := Light(Point(480.0, 500.0), Point(480.0, 480.0), Point(480.0, 520.0), 40.0, 8.0, 0.0, 0);
    var r := Light(Point(520.0, 500.0), Point(520.0, 480.0), Point(520.0, 520.0), 40.0, 8.0, 0.0, 0);
    var a := Armor(l, r, Small);
    if p.valid(a) {
      LostAcquires(p, t, [a], gain);
      assert a.Center() == Point(500.0, 500.0);
    }
  }

  /**
   * DETECTING as written: a match counts one more detection, corrects the filter at
   * the match and confirms TRACKING exactly when the count reaches the threshold;
   * no match (including an empty frame) clears the count and returns to LOST.
   */
  lemma DetectingStep(p: Params, t: Tracker, armors: seq<Armor>, gain: Kalman.Gain)
    requires t.state == Detecting
    ensures
      var r := Step(p, t, armors, gain);
      var m := SelectBestMatch(p, t, armors);
      && (m.Some? ==>
            && r.tracker.detectCount == t.detectCount + 1
            && r.tracker.lostCount == t.lostCount && r.tracker.predicted == t.predicted
            && r.tracker.tracked == Some(armors[m.value])
            && r.tracker.filter == Kalman.Update(t.filter, armors[m.value].Center(), gain)
            && (r.tracker.state == Tracking <==> t.detectCount + 1 >= p.trackingThres)
            && (r.tracker.isTracking <==> t.isTracking || t.detectCount + 1 >= p.trackingThres)
            && (r.tracker.state == Detecting <==> t.detectCount + 1 < p.trackingThres)
            && r.calls == [CallUpdate(armors[m.value].Center())])
      && (m.None? ==> r == StepResult(t.(detectCount := 0, state := Lost), []))
  {
  }

  /**
   * DETECTING never confirms: the tracking flag is off there, so the match is
   * always missing and every update returns to LOST with the detect counter cleared.
   */
  lemma DetectingAlwaysFallsBack(p: Params, t: Tracker, armors: seq<Armor>, gain: Kalman.Gain)
    requires t.state == Detecting && !t.isTracking
    ensures Step(p, t, armors, gain) == StepResult(t.(detectCount := 0, state := Lost), [])
  {
  }

  /**
   * TRACKING: predict, then a match keeps TRACKING with the lost counter cleared and
   * the exposed position taken from the corrected filter; a miss counts one more
   * lost frame and turns TEMP_LOST exactly when the count reaches the threshold.
   */
  lemma TrackingStep(p: Params, t: Tracker, armors: seq<Armor>, gain: Kalman.Gain)
    requires t.state == Tracking
    ensures
      var r := Step(p, t, armors, gain).tracker;
      var m := SelectBestMatch(p, Prepared(t), armors);
      && (m.Some? ==>
            && r.state == Tracking && r.lostCount == 0
            && r.tracked == Some(armors[m.value])
            && r.predicted == r.filter.prediction
            && r.filter == Kalman.Update(Prepared(t).filter, armors[m.value].Center(), gain)
            && r.isTracking == t.isTracking && r.detectCount == t.detectCount
            && Step(p, t, armors, gain).calls == [CallPredict, CallUpdate(armors[m.value].Center())])
      && (m.None? ==>
            && r.lostCount == t.lostCount + 1
            && (r.state == TempLost <==> t.lostCount + 1 >= p.lostThres)
            && (r.state == Tracking <==> t.lostCount + 1 < p.lostThres)
            && r.tracked == t.tracked && r.isTracking == t.isTracking && r.detectCount == t.detectCount
            && r.filter == Prepared(t).filter && r.predicted == Prepared(t).predicted
            && Step(p, t, armors, gain).calls == [CallPredict])
  {
  }

  /**
   * TEMP_LOST: predict, then a match returns to TRACKING with the lost counter
   * cleared, corrects the filter at the match and keeps the predicted position;
   * a miss counts one more lost frame and resets exactly when the count reaches
   * twice the threshold.
   */
  lemma TempLostStep(p: Params, t: Tracker, armors: seq<Armor>, gain: Kalman.Gain)
    requires t.state == TempLost
    ensures
      var r := Step(p, t, armors, gain).tracker;
      var m := SelectBestMatch(p, Prepared(t), armors);
      && (m.Some? ==>
            && r.state == Tracking && r.lostCount == 0
            && r.tracked == Some(armors[m.value])
            && r.predicted == Prepared(t).predicted
            && r.filter == Kalman.Update(Prepared(t).filter, armors[m.value].Center(), gain)
            && r.isTracking == t.isTracking && r.detectCount == t.detectCount
            && Step(p, t, armors, gain).calls == [CallPredict, CallUpdate(armors[m.value].Center())])
      && (m.None? ==> Step(p, t, armors, gain).calls == [CallPredict])
      && (m.None? && t.lostCount + 1 >= 2 * p.lostThres ==> r == Reset(Prepared(t)))
      && (m.None? && t.lostCount + 1 < 2 * p.lostThres ==>
            r == Prepared(t).(lostCount := t.lostCount + 1))
  {
  }

  /** Outside LOST, a frame whose armors yield no match is handled exactly like an empty frame. */
  lemma NoMatchIsLikeEmptyFrame(p: Params, t: Tracker, armors: seq<Armor>, gain: Kalman.Gain)
    requires t.state != Lost
    requires SelectBestMatch(p, Prepared(t), armors).None?
    ensures Step(p, t, armors, gain) == Step(p, t, [], gain)
  {
  }

  /** n consecutive empty frames. */
  function Misses(p: Params, t: Tracker, n: nat, gain: Kalman.Gain): Tracker {
    if n == 0 then t else Step(p, Misses(p, t, n - 1, gain), [], gain).tracker
  }

  /** Before the reset, n misses from TRACKING with a clear counter leave the counter at n. */
  lemma {:induction false} MissesBeforeReset(p: Params, t: Tracker, n: nat, gain: Kalman.Gain)
    requires t.state == Tracking && t.lostCount == 0 && p.lostThres >= 1
    requires n < 2 * p.lostThres
    ensures Misses(p, t, n, gain).lostCount == n
    ensures Misses(p, t, n, gain).state == (if n < p.lostThres then Tracking else TempLost)
    ensures Misses(p, t, n, gain).tracked == t.tracked
  {
    if n > 0 {
      MissesBeforeReset(p, t, n - 1, gain);
    }
  }

  /**
   * From TRACKING with a clear counter: TRACKING for fewer than lostThres misses,
   * TEMP_LOST up to 2 lostThres - 1 misses, and fully reset at 2 lostThres.
   */
  lemma ConsecutiveMisses(p: Params, t: Tracker, n: nat, gain: Kalman.Gain)
    requires t.state == Tracking && t.lostCount == 0 && p.lostThres >= 1
    requires n <= 2 * p.lostThres
    ensures n < p.lostThres ==> Misses(p, t, n, gain).state == Tracking
    ensures p.lostThres <= n < 2 * p.lostThres ==> Misses(p, t, n, gain).state == TempLost
    ensures n == 2 * p.lostThres ==>
      var r := Misses(p, t, n, gain);
      && r.state == Lost && !r.isTracking && r.tracked == None
      && r.detectCount == 0 && r.lostCount == 0
  {
    if n == 2 * p.lostThres {
      MissesBeforeReset(p, t, n - 1, gain);
    } else {
      MissesBeforeReset(p, t, n, gain);
    }
  }

  /**
   * What holds of every tracker reachable from construction: LOST with both
   * counters clear, or DETECTING with a detect count of 1; never tracking.
   */
  predicate Dormant(t: Tracker) {
    && !t.isTracking
    && t.lostCount == 0
    && (t.state == Lost || t.state == Detecting)
    && t.detectCount == (if t.state == Detecting then 1 else 0)
  }

  datatype Frame = Frame(armors: seq<Armor>, gain: Kalman.Gain)

  /** The tracker after a sequence of frames. */
  function Run(p: Params, t: Tracker, frames: seq<Frame>): Tracker
    decreases |frames|
  {
    if |frames| == 0 then t
    else Run(p, Step(p, t, frames[0].armors, frames[0].gain).tracker, frames[1..])
  }

  lemma DormantIsStable(p: Params, t: Tracker, armors: seq<Armor>, gain: Kalman.Gain)
    requires Dormant(t)
    ensures Dormant(Step(p, t, armors, gain).tracker)
  {
  }

  /**
   * Whatever frames arrive, a tracker fresh from construction never reaches
   * TRACKING or TEMP_LOST and never sets its tracking flag.
   */
  lemma {:induction false} NeverTracksFromStart(p: Params, t: Tracker, frames: seq<Frame>)
    requires Dormant(t)
    ensures Dormant(Run(p, t, frames))
    ensures Run(p, t, frames).state != Tracking && Run(p, t, frames).state != TempLost
    decreases |frames|
  {
    if |frames| > 0 {
      DormantIsStable(p, t, frames[0].armors, frames[0].gain);
      NeverTracksFromStart(p, Step(p, t, frames[0].armors, frames[0].gain).tracker, frames[1..]);
    }
  }

  lemma InitialIsDormant()
    ensures Dormant(Initial())
    ensures !Initial().filter.initialized
  {
  }
}
